=== FILE: README.md ===
# SNITC clustering core in Dafny

SNITC (Simple Nonlinear Iterative Temporal Clustering) segments a satellite image time series into
superpixels. It works like SLIC. Cluster seeds are placed on a lattice over the image. Then, for a
fixed number of iterations:

- every cluster looks at a window of about `S` pixels around its centre;
- a spatio-temporal (DTW-based) distance engine scores every pixel of that window against the
  cluster's mean series;
- a pixel moves to the cluster only when the new distance is strictly smaller than the best it
  holds;
- after every sweep over the clusters, each cluster's mean series and centre are recomputed from
  its members.

This project models that core in `snitc.py`:

- the two seed initialisers, `init_cluster_regular` and the lattice fill of `init_cluster_hex`;
- the per-cluster assignment step of the main loop: the search window, the window-relative
  centre, and the strict-less `numpy.where` merge;
- `update_cluster`.

The model is imperative where the code is. The image is an `array3<real>` indexed (band, row,
column). The cluster table is an `array2` with `bands + 3` fields per cluster: the mean series,
then the centre row, the centre column and the pixel count. The label map and the distance map are
`array2`s that the methods update in place.

Floating-point values are `Floats.Float`: an exact real, or one of +inf, -inf and NaN. IEEE
comparison is modelled (NaN compares false), and so is the division `0/0 = NaN`. Rounding is not
modelled.

The exceptions the code raises, and the out-of-bounds writes it would make, are `Faults.Fault`
values in a `Result`:

- a division by zero;
- `range` with step 0;
- a seed written past the table;
- `int()` of a NaN or infinite centre;
- a distance field of the wrong shape;
- a label that addresses no table row.

The distance engine, which is foreign code, is a function parameter (`Driver.Engine`).

Three behaviours of the code are modelled as written:

- The distance map is never reset between iterations (snitc.py:116-166), so later iterations only
  improve on earlier distances. `Driver.Iterate` keeps the maps across iterations, and its
  `Improved` postcondition states that distances never rise over the whole run.
- Label -1 is not skipped by the update: `C_new[kk, :]` with kk = -1 adds the pixel to the last
  row of the table (snitc.py:517-518), by Python's negative indexing. `Centroids.Slot` models this.
- A cluster with no members gets 0/0 = NaN in every field (snitc.py:522,
  `Centroids.EmptyAndCount`), and the next sweep's `int(numpy.floor(nan))` raises (snitc.py:119),
  which is `Err(NonFiniteCentre)` in `Driver.AssignCluster`.

## Model

| member | source | states |
|---|---|---|
| `Floats.Quotient` | snitc.py:522 | double division: a finite quotient exactly when the divisor is non-zero, and then quotient times divisor is the dividend; 0/0 is NaN, and a non-zero value over 0 is the infinity of its sign |
| `Lattice.FloorRoot` | snitc.py:285 | `int((N/ki)**0.5)` without rounding: the result s satisfies s*s*ki <= N < (s+1)*(s+1)*ki |
| `Lattice.FloorRootUnique` | snitc.py:302-303 | the bracketing determines the integer root, so `floor(rows/ki**0.5)` (a root of rows*rows/ki) is FloorRoot(rows*rows, ki) |
| `Lattice.Range` | snitc.py:308-309 | `range(start, stop, step)` is empty exactly when start >= stop, and every element lies in [start, stop) |
| `Lattice.RangeAt` | snitc.py:308-309 | element i of the range is start + i*step |
| `Lattice.RangeEnd` | snitc.py:308-309 | the range stops at the first element that would reach stop |
| `Lattice.RegularCandidate` | snitc.py:283-303 | the grid computed from the integer roots: base >= 1 exactly when 4*ki <= rows*columns, each step >= 1 exactly when ki <= its side squared, and floor(rows/base)*floor(columns/base) allocated rows |
| `Lattice.RegularGeometry` | snitc.py:283-318 | the spacings of the square lattice and the faults, each outcome given exactly: DivisionByZero when ki = 0 or rows*columns < 4*ki (so base = 0); ZeroRangeStep when the row step is 0, or the column step is 0 and the outer loop runs; TableOverflow when the steps are defined but the visited nodes outnumber the allocated rows; otherwise Ok with the candidate grid; on success S, base, the allocated row count and both steps are the integer roots, base >= 1, the row step >= 1, the column step >= 1 whenever the inner loop runs, and every visited node fits the table |
| `Lattice.FlatInjective` | snitc.py:306-316 | the running counter `kk` numbers lattice nodes row by row, and distinct nodes get distinct table rows |
| `Lattice.ProductSize` | snitc.py:308-316 | the nested loops visit as many nodes as the product of the two range lengths |
| `Lattice.ProductRoom` | snitc.py:308-316 | each outer step appends one full row of nodes to the visiting order, and that row fits the whole product |
| `Lattice.ProductAt` | snitc.py:308-316 | node (i, j) is visited at position i times the inner length, plus j |
| `Lattice.PutSeed` | snitc.py:312-315 | writing one seed row keeps the earlier seeds, adds `img[:, r, c]` followed by r, c and 0, and leaves the later rows zero |
| `Lattice.PutRow` | snitc.py:309-315 | the inner loop writes the seeds (x, y) of one lattice row after the earlier seeds, advances the counter by the row length, and leaves the later rows zero |
| `Lattice.FillRows` | snitc.py:308-316 | the outer loop appends one full row of seeds per x, ending with the counter at the node count, the seeds in row-major order and the remaining rows zero |
| `Lattice.FillProduct` | snitc.py:306-316 | after the two loops, the counter equals the node count, the table rows hold the seeds in visiting order, and every later row is zero |
| `Lattice.InitClusterRegular` | snitc.py:264-321 | the geometry's fault is propagated; otherwise the table has the allocated row count, the returned k is the number of seeds written, the seeds are the range product in row-major order, the rest of the table is zero, S is the integer root, and the maps are fresh, image-shaped and blank |
| `Raster.NewMaps` | snitc.py:296-300 | a label map of -1 and a distance map of +inf, both with the image's rows and columns |
| `Lattice.HexFitsQuotients` | snitc.py:216-220 | the lattice relations the model requires say exactly `S = columns/(nodeColumns + 0.5)` and `vSpacing = rows/nodeRows` |
| `Lattice.HexStep` | snitc.py:237-251 | each pass of the loops adds one spacing to the running position: `r = r + vSpacing` per lattice row and `c = c + S` per node |
| `Lattice.HexInside` | snitc.py:237-251 | every node position lies in [0, rows) x [0, columns): the last row half a spacing above the bottom edge, the last node at least half a spacing left of the right edge |
| `Lattice.HexSeed` | snitc.py:238-248 | every hexagonal node (ri, ci) samples a pixel inside the image, for odd rows starting at S/2 and even rows at S |
| `Lattice.HexRow` | snitc.py:245-251 | one lattice row yields nodeColumns nodes, node ci at position ci |
| `Lattice.HexNodesSize` | snitc.py:236-254 | the fill writes exactly nodeRows*nodeColumns seeds |
| `Lattice.HexNodesAt` | snitc.py:236-254 | node (ri, ci) is table row ri*nodeColumns + ci |
| `Lattice.HexRoom` | snitc.py:236-254 | each lattice row fits in the remaining table rows |
| `Lattice.FillHex` | snitc.py:235-254 | after both loops, the table holds every node's seed (pixel series, row, column, 0) in lattice order |
| `Lattice.InitClusterHex` | snitc.py:222-254 | k = nodeRows*nodeColumns table rows, all filled by the lattice seeds; the maps are fresh, image-shaped and blank |
| `Assignment.SearchWindow` | snitc.py:119-134 | a NaN or infinite centre raises; otherwise the bounds lie within the image (+1), a centre inside the image lies inside its own window, `Top + ic` and `Left + jc` being exactly the centre's pixel, and the clipped slice holds exactly the pixels within S whole pixels of the centre's pixel |
| `Assignment.MergeCell` | snitc.py:158-159 | per pixel, the distance never rises; the label changes only to kk and only on a strict drop; a strictly smaller distance always wins; a tie or a NaN keeps the old pair; without NaN the new distance is the minimum |
| `Assignment.MergeWindow` | snitc.py:153-163 | every window pixel gets its MergeCell result computed from the old label and distance, and every pixel outside the window is unchanged |
| `Driver.AssignCluster` | snitc.py:117-163 | one cluster's step: the window fault is propagated; the engine is asked about the clipped subimage and the cluster's series; its field is merged per pixel inside the window and nothing else changes; no distance rises; every label is its old value or kk; the only faults are a non-finite centre (exactly when the window is undefined) and FieldShape, which occurs exactly when the window is defined and the engine's field does not have its shape |
| `Driver.Iterate` | snitc.py:116-166 | over all sweeps, labels stay in [-1, k), every labelled pixel has a distance below +inf, no distance rises, and no label changes without a strict drop; after at least one sweep, the answered table is the member mean of the final label map; with at least one cluster, the update never fails, so the only faults are a non-finite centre and a misshapen field |
| `Driver.NextWindowHoldsCentre` | snitc.py:119-134 | after an update, the window of a cluster with members is defined and contains the cluster's own centre pixel |
| `Driver.Segment` | snitc.py:108-166 | seed with the chosen pattern (for the hexagonal one, window spacing `round(S)` of the lattice spacing) and run the sweeps; the answered label map has the image's shape and only labels in [-1, k) |
| `Centroids.LabelledSlotted` | snitc.py:517-518 | with at least one cluster, labels in [-1, k) all address table rows, -1 the last one |
| `Centroids.Accumulate` | snitc.py:514-518 | the pixel loop fails exactly when some label addresses no table row; otherwise every field of row s is the sum of that field over the members of s |
| `Centroids.Divide` | snitc.py:521-522 | every row becomes its sums divided by its count field |
| `Centroids.UpdateCluster` | snitc.py:492-526 | a fresh k x (bands+3) table exactly when every label addresses a row (-1 addresses the last); field j of row s is the member sum of j divided by the member count |
| `Centroids.CountField` | snitc.py:514-518 | the last field accumulates one per member, so it is the member count |
| `Centroids.EmptyAndCount` | snitc.py:521-522 | a cluster with no members gets NaN in every field; one with members gets count field 1 |
| `Centroids.SumWithin` | snitc.py:514-518 | a field bounded by [0, b] at every pixel sums to at most b per member |
| `Centroids.CentreInImage` | snitc.py:514-522 | the new centre of a cluster with members is finite and lies within [0, rows-1] x [0, columns-1] |
| `Centroids.Partition` | snitc.py:514-518 | when every label addresses a row, the member counts of the k clusters add up to rows*columns: each pixel is counted exactly once |

## Left out

- Reading the dataset, no-data replacement and scaling, the post-processing that enforces
  connectivity, the conversion to polygons (`write_pandas`), metrics and notebook helpers: these are
  I/O or outside the clustering core.
- The distance engine (`distance_fast`, `distance`, the DTW backends and the TWDTW weighting) is
  foreign code. It is an arbitrary function parameter. The `try`/`except` fallback between the two
  backends is therefore one call. A field whose shape differs from the window is `Err(FieldShape)`,
  where numpy would broadcast or raise.
- The derivation of the hexagonal lattice (the square roots and `round` calls that give
  nodeColumns, S, nodeRows and vSpacing, and the final `round(S)`) uses floating-point square roots.
  The model takes the derived values as parameters: `Lattice.HexFits` states the exact relations
  the derivation establishes, and `Driver.Pattern` carries the rounded S. The derivation can itself
  raise ZeroDivisionError: `columns/S` for an empty image (snitc.py:210-213) and `rows/nodeRows`
  when nodeRows rounds to 0 (snitc.py:219-220). `Lattice.HexFits` excludes exactly these inputs
  through `nodeRows >= 1` and `S > 0`, so those faults are not modelled.
- `Lattice.RegularGeometry`: TableOverflow is modelled as a possible outcome, with the exact
  condition under which it occurs. The model does not prove that this condition is unreachable,
  that is, that numba's unchecked write at snitc.py:314 always stays inside the table.
- Floating-point rounding: `int(sqrt(x))` is the exact integer root, sums and means are exact
  reals, and the hexagonal positions are exact sums of the spacings.
- `prange` parallelism is modelled as a sequential loop with increasing cluster index. The data
  race in `update_cluster`'s parallel pixel loop is not modelled.
- numba compiles without bounds checks, so a seed written past the table or a label beyond the
  table would corrupt memory. The model stops with `TableOverflow` or `LabelOutOfRange` instead.
- The unknown-pattern fallback to the hexagonal lattice, and the message it prints, are left out:
  `Driver.Pattern` has only the two patterns.
- The label map holds integers. In the code it is a float array whose labels are cast with `int()`.
- The dead assignment `w = S/2` in `init_cluster_regular` has no effect and is not modelled.
- `Assignment.SearchWindow`: the exact-band property is stated only when the window does not lie
  wholly above or left of the image (`floor(centre) + S >= -1`). There, a negative stop wraps
  around as a Python slice bound; `Assignment.Clip` models this, but no property is stated for it.
  `Driver.NextWindowHoldsCentre` shows that centres produced by an update never lead there.
- `Driver.Iterate`: the final label and distance maps are related to the starting ones only by the
  invariants they keep, not as a closed function of the engine's answers; the per-cluster contents
  are stated by `Driver.AssignCluster`. When a sweep fails, only those invariants are stated for
  the maps. Whether a run with at least one sweep succeeds is not characterised: the contract
  limits the faults to a non-finite centre and a misshapen field (for k >= 1), but does not say for
  which engines and centres neither occurs.
- `Driver.Segment`: states the shape and the label range of the map it answers; what each sweep
  does is stated by `Driver.Iterate` and `Driver.AssignCluster`.

=== FILE: assignment.dfy ===
/** The assignment step of one clustering iteration for one cluster: the search window around
    the cluster centre, the window-relative centre, and the merge of the distance field the
    distance engine returns into the label and distance maps. */
module Assignment {
  import opened Floats
  import opened Faults

  /** A bound of a Python slice over an axis of length n: a negative bound counts from the end,
      and the result is clamped into [0, n]. */
  function Clip(i: int, n: nat): (b: nat)
    ensures b <= n
    ensures 0 <= i ==> b == if i <= n then i else n
  {
    if i < 0 then (if i + n < 0 then 0 else i + n)
    else if i > n then n
    else i
  }

  /** The raw window bounds and the centre relative to the window, as computed before slicing. */
  datatype Window = Window(rmin: int, rmax: int, cmin: int, cmax: int, ic: int, jc: int)

  /** First image row of the slice `rmin:rmax`. */
  function Top(w: Window, rows: nat): nat
  {
    Clip(w.rmin, rows)
  }

  /** Number of image rows in the slice `rmin:rmax` (an empty slice when stop <= start). */
  function Height(w: Window, rows: nat): (n: nat)
    ensures Top(w, rows) + n <= rows
  {
    var top, stop := Clip(w.rmin, rows), Clip(w.rmax, rows);
    if stop <= top then 0 else stop - top
  }

  /** First image column of the slice `cmin:cmax`. */
  function Left(w: Window, columns: nat): nat
  {
    Clip(w.cmin, columns)
  }

  /** Number of image columns in the slice `cmin:cmax`. */
  function Width(w: Window, columns: nat): (n: nat)
    ensures Left(w, columns) + n <= columns
  {
    var left, stop := Clip(w.cmin, columns), Clip(w.cmax, columns);
    if stop <= left then 0 else stop - left
  }

  /** Python's `max(x, 0)` and `min(x, n)` for a finite float x. */
  function AtLeastZero(x: real): real
  {
    if 0.0 > x then 0.0 else x
  }

  function AtMost(x: real, n: nat): real
  {
    if (n as real) < x then n as real else x
  }

  /** Pixel index p of an axis of length n lies within S whole pixels of the pixel holding `centre`. */
  predicate InBand(p: int, centre: real, S: nat, n: nat)
  {
    0 <= p < n && centre.Floor - S <= p <= centre.Floor + S
  }

  /** `rmin`, `rmax`, `cmin`, `cmax`, `ic` and `jc` for a cluster whose centre row and column
      fields are cr and cc. A NaN or infinite centre makes `int(...)` raise. */
  function SearchWindow(cr: Float, cc: Float, S: nat, rows: nat, columns: nat): (r: Result<Window>)
    ensures r.Ok? <==> cr.Fin? && cc.Fin?
    ensures r.Err? ==> r.fault == NonFiniteCentre
    ensures r.Ok? ==> 0 <= r.value.rmin && r.value.rmax <= rows + 1
    ensures r.Ok? ==> 0 <= r.value.cmin && r.value.cmax <= columns + 1
    // a centre inside the image lies inside its own window
    ensures r.Ok? && 0.0 <= cr.v < rows as real ==> 0 <= r.value.ic < Height(r.value, rows)
    ensures r.Ok? && 0.0 <= cc.v < columns as real ==> 0 <= r.value.jc < Width(r.value, columns)
    // (ic, jc) is the centre's own pixel, relative to the window's first row and column
    ensures r.Ok? && 0.0 <= cr.v < rows as real ==> Top(r.value, rows) + r.value.ic == cr.v.Floor
    ensures r.Ok? && 0.0 <= cc.v < columns as real ==> Left(r.value, columns) + r.value.jc == cc.v.Floor
    // unless the window lies wholly above (left of) the image, it holds exactly the pixels within S
    ensures r.Ok? && cr.v.Floor + S >= -1 ==>
      forall p :: Top(r.value, rows) <= p < Top(r.value, rows) + Height(r.value, rows) <==> InBand(p, cr.v, S, rows)
    ensures r.Ok? && cc.v.Floor + S >= -1 ==>
      forall q :: Left(r.value, columns) <= q < Left(r.value, columns) + Width(r.value, columns) <==> InBand(q, cc.v, S, columns)
  {
    if !cr.Fin? || !cc.Fin? then Err(NonFiniteCentre)
    else
      var rmin := AtLeastZero(cr.v - S as real).Floor;
      var rmax := AtMost(cr.v + S as real, rows).Floor + 1;
      var cmin := AtLeastZero(cc.v - S as real).Floor;
      var cmax := AtMost(cc.v + S as real, columns).Floor + 1;
      Ok(Window(rmin, rmax, cmin, cmax, cr.v.Floor - rmin, cc.v.Floor - cmin))
  }

  /** Per pixel, `numpy.where(D < subd, kk, subl)` and `numpy.where(D < subd, D, subd)`: the new
      distance and label of a pixel whose field value is dv, old distance dv0 and old label lv. */
  function MergeCell(dv: Float, dv0: Float, lv: int, kk: int): (m: (Float, int))
    // the distance never rises, and the label only moves to kk on a strict improvement
    ensures NotAbove(m.0, dv0)
    ensures m.1 != lv ==> m.1 == kk && Less(m.0, dv0)
    ensures m.0 != dv0 ==> m == (dv, kk)
    // a strictly smaller distance always wins; a tie or NaN keeps the old pair
    ensures Less(dv, dv0) ==> m == (dv, kk)
    ensures dv == dv0 || dv.NaN? || dv0.NaN? ==> m == (dv0, lv)
    // without NaN, the new distance is the minimum of the two
    ensures !dv.NaN? && !dv0.NaN? ==> (m.0 == dv || m.0 == dv0) && !Less(dv, m.0) && !Less(dv0, m.0)
  {
    if Less(dv, dv0) then (dv, kk) else (dv0, lv)
  }

  /** The distance field has h rows of w values each. */
  predicate Shaped(D: seq<seq<Float>>, h: nat, w: nat)
  {
    |D| == h && forall i :: 0 <= i < h ==> |D[i]| == w
  }

  /** Writes the merged labels and distances back into the window `[top, top+h) x [left, left+w)`
      of the maps; every pixel outside the window keeps its label and distance. */
  method MergeWindow(l: array2<int>, d: array2<Float>, D: seq<seq<Float>>, top: nat, left: nat, h: nat, w: nat, kk: int)
    requires l.Length0 == d.Length0 && l.Length1 == d.Length1
    requires top + h <= l.Length0 && left + w <= l.Length1 && Shaped(D, h, w)
    modifies l, d
    ensures forall p, q :: top <= p < top + h && left <= q < left + w ==>
      (d[p, q], l[p, q]) == MergeCell(D[p - top][q - left], old(d[p, q]), old(l[p, q]), kk)
    ensures forall p, q :: 0 <= p < l.Length0 && 0 <= q < l.Length1 && !(top <= p < top + h && left <= q < left + w) ==>
      l[p, q] == old(l[p, q]) && d[p, q] == old(d[p, q])
  {
    forall p, q | top <= p < top + h && left <= q < left + w {
      l[p, q] := MergeCell(D[p - top][q - left], d[p, q], l[p, q], kk).1;
    }
    forall p, q | top <= p < top + h && left <= q < left + w {
      d[p, q] := MergeCell(D[p - top][q - left], d[p, q], l[p, q], kk).0;
    }
  }
}

=== FILE: centroids.dfy ===
/** The update step: every cluster row becomes the mean of the pixels labelled with it (series,
    row, column), and its last field the count divided by itself. */
module Centroids {
  import opened Floats
  import opened Faults
  import opened Raster

  /** The table row a label addresses, with Python's negative indexing: -1 is the last row. */
  function Slot(v: int, k: nat): int
  {
    if v < 0 then v + k else v
  }

  /** The label map has the image's rows and columns. */
  predicate Fits(img: array3<real>, la: array2<int>)
  {
    la.Length0 == img.Length1 && la.Length1 == img.Length2
  }

  /** Every label addresses a row of a k-row table. */
  ghost predicate AllSlotted(la: array2<int>, k: nat)
    reads la
  {
    forall r, c :: 0 <= r < la.Length0 && 0 <= c < la.Length1 ==> 0 <= Slot(la[r, c], k) < k
  }

  // ---------------------------------------------------------------------------------------
  // Sums over the members of a cluster
  // ---------------------------------------------------------------------------------------

  /** Field j summed over the pixels (p, q), q < c, of image row p whose label addresses row s. */
  ghost function RowSum(img: array3<real>, la: array2<int>, k: nat, s: int, j: nat, p: nat, c: nat): real
    requires Fits(img, la) && p < la.Length0 && c <= la.Length1 && j < img.Length0 + 3
    reads img, la
  {
    if c == 0 then 0.0
    else RowSum(img, la, k, s, j, p, c - 1) + (if Slot(la[p, c - 1], k) == s then Record(img, p, c - 1, 1.0, j) else 0.0)
  }

  /** Field j summed over the pixels of the first r image rows whose label addresses row s. */
  ghost function GridSum(img: array3<real>, la: array2<int>, k: nat, s: int, j: nat, r: nat): real
    requires Fits(img, la) && r <= la.Length0 && j < img.Length0 + 3
    reads img, la
  {
    if r == 0 then 0.0
    else GridSum(img, la, k, s, j, r - 1) + RowSum(img, la, k, s, j, r - 1, la.Length1)
  }

  /** The number of pixels (p, q), q < c, of row p whose label addresses row s. */
  ghost function RowCount(la: array2<int>, k: nat, s: int, p: nat, c: nat): nat
    requires p < la.Length0 && c <= la.Length1
    reads la
  {
    if c == 0 then 0
    else RowCount(la, k, s, p, c - 1) + (if Slot(la[p, c - 1], k) == s then 1 else 0)
  }

  /** The number of pixels of the first r rows whose label addresses row s: the members of s. */
  ghost function GridCount(la: array2<int>, k: nat, s: int, r: nat): nat
    requires r <= la.Length0
    reads la
  {
    if r == 0 then 0
    else GridCount(la, k, s, r - 1) + RowCount(la, k, s, r - 1, la.Length1)
  }

  /** Field j of the updated row s: the member sum divided by the member count, as doubles do it. */
  ghost function Centre(img: array3<real>, la: array2<int>, k: nat, s: int, j: nat): Float
    requires Fits(img, la) && j < img.Length0 + 3
    reads img, la
  {
    Quotient(GridSum(img, la, k, s, j, la.Length0), GridSum(img, la, k, s, img.Length0 + 2, la.Length0))
  }

  /** With at least one cluster, a map whose labels lie in [-1, k) addresses only table rows:
      -1 addresses the last one. */
  lemma LabelledSlotted(la: array2<int>, k: nat)
    requires k >= 1 && Labelled(la, k)
    ensures AllSlotted(la, k)
  {
    forall r, c | 0 <= r < la.Length0 && 0 <= c < la.Length1
      ensures 0 <= Slot(la[r, c], k) < k
    {
      assert -1 <= la[r, c] < k;
    }
  }

  // ---------------------------------------------------------------------------------------
  // update_cluster
  // ---------------------------------------------------------------------------------------

  /** `update_cluster`: a fresh k-row table whose row s holds Centre(s, j) in every field j, or
      LabelOutOfRange when some label addresses no row of the table. */
  method UpdateCluster(img: array3<real>, la: array2<int>, k: nat) returns (res: Result<array2<Float>>)
    requires Fits(img, la)
    ensures res.Ok? <==> AllSlotted(la, k)
    ensures res.Err? ==> res.fault == LabelOutOfRange
    ensures res.Ok? ==> fresh(res.value) && res.value.Length0 == k && res.value.Length1 == img.Length0 + 3
    ensures res.Ok? ==> forall s, j :: 0 <= s < k && 0 <= j < img.Length0 + 3 ==>
      res.value[s, j] == Centre(img, la, k, s, j)
  {
    var table := new Float[k, img.Length0 + 3]((_, _) => Fin(0.0));
    var ok := Accumulate(img, la, table);
    if !ok {
      return Err(LabelOutOfRange);
    }
    Divide(img, la, table);
    return Ok(table);
  }

  /** The pixel loop: adds `numpy.append(img[:, r, c], [r, c, 1])` to the row each label addresses;
      stops, answering false, at the first label that addresses no row. */
  method Accumulate(img: array3<real>, la: array2<int>, table: array2<Float>) returns (ok: bool)
    requires Fits(img, la) && table.Length1 == img.Length0 + 3
    requires forall s, j :: 0 <= s < table.Length0 && 0 <= j < table.Length1 ==> table[s, j] == Fin(0.0)
    modifies table
    ensures ok <==> AllSlotted(la, table.Length0)
    ensures ok ==> forall s, j :: 0 <= s < table.Length0 && 0 <= j < table.Length1 ==>
      table[s, j] == Fin(GridSum(img, la, table.Length0, s, j, la.Length0))
  {
    var k, fields := table.Length0, table.Length1;
    for r := 0 to la.Length0
      invariant forall s, j :: 0 <= s < k && 0 <= j < fields ==> table[s, j] == Fin(GridSum(img, la, k, s, j, r))
      invariant forall p, q :: 0 <= p < r && 0 <= q < la.Length1 ==> 0 <= Slot(la[p, q], k) < k
    {
      for c := 0 to la.Length1
        invariant forall s, j :: 0 <= s < k && 0 <= j < fields ==>
          table[s, j] == Fin(GridSum(img, la, k, s, j, r) + RowSum(img, la, k, s, j, r, c))
        invariant forall q :: 0 <= q < c ==> 0 <= Slot(la[r, q], k) < k
      {
        var s := Slot(la[r, c], k);
        if !(0 <= s < k) {
          return false;
        }
        forall f | 0 <= f < fields {
          table[s, f] := Plus(table[s, f], Record(img, r, c, 1.0, f));
        }
      }
    }
    return true;
  }

  /** The mean loop: row s becomes `C_new[s, :] / C_new[s, bands+2]`, the count read once. */
  method Divide(img: array3<real>, la: array2<int>, table: array2<Float>)
    requires Fits(img, la) && table.Length1 == img.Length0 + 3
    requires forall s, j :: 0 <= s < table.Length0 && 0 <= j < table.Length1 ==>
      table[s, j] == Fin(GridSum(img, la, table.Length0, s, j, la.Length0))
    modifies table
    ensures forall s, j :: 0 <= s < table.Length0 && 0 <= j < table.Length1 ==>
      table[s, j] == Centre(img, la, table.Length0, s, j)
  {
    var k, bands := table.Length0, img.Length0;
    for s := 0 to k
      invariant forall s', j :: 0 <= s' < s && 0 <= j < bands + 3 ==> table[s', j] == Centre(img, la, k, s', j)
      invariant forall s', j :: s <= s' < k && 0 <= j < bands + 3 ==> table[s', j] == Fin(GridSum(img, la, k, s', j, la.Length0))
    {
      var count := table[s, bands + 2];
      forall f | 0 <= f < bands + 3 {
        table[s, f] := Quotient(table[s, f].v, count.v);
      }
    }
  }

  // ---------------------------------------------------------------------------------------
  // What the update computes
  // ---------------------------------------------------------------------------------------

  /** The last field sums a 1 per member: it is the member count of the row. */
  lemma {:induction false} CountField(img: array3<real>, la: array2<int>, k: nat, s: int, r: nat)
    requires Fits(img, la) && r <= la.Length0
    ensures GridSum(img, la, k, s, img.Length0 + 2, r) == GridCount(la, k, s, r) as real
  {
    if r > 0 {
      CountField(img, la, k, s, r - 1);
      RowCountField(img, la, k, s, r - 1, la.Length1);
    }
  }

  lemma {:induction false} RowCountField(img: array3<real>, la: array2<int>, k: nat, s: int, p: nat, c: nat)
    requires Fits(img, la) && p < la.Length0 && c <= la.Length1
    ensures RowSum(img, la, k, s, img.Length0 + 2, p, c) == RowCount(la, k, s, p, c) as real
  {
    if c > 0 {
      RowCountField(img, la, k, s, p, c - 1);
    }
  }

  /** A cluster with no members has every field 0/0 = NaN; one with members has count field 1. */
  lemma EmptyAndCount(img: array3<real>, la: array2<int>, k: nat, s: int)
    requires Fits(img, la)
    ensures GridCount(la, k, s, la.Length0) == 0 ==>
      forall j :: 0 <= j < img.Length0 + 3 ==> Centre(img, la, k, s, j) == NaN
    ensures GridCount(la, k, s, la.Length0) > 0 ==> Centre(img, la, k, s, img.Length0 + 2) == Fin(1.0)
  {
    CountField(img, la, k, s, la.Length0);
    if GridCount(la, k, s, la.Length0) == 0 {
      forall j | 0 <= j < img.Length0 + 3
        ensures GridSum(img, la, k, s, j, la.Length0) == 0.0
      {
        NoMembersNoSum(img, la, k, s, j, la.Length0);
      }
    }
  }

  lemma {:induction false} NoMembersNoSum(img: array3<real>, la: array2<int>, k: nat, s: int, j: nat, r: nat)
    requires Fits(img, la) && r <= la.Length0 && j < img.Length0 + 3
    requires GridCount(la, k, s, r) == 0
    ensures GridSum(img, la, k, s, j, r) == 0.0
  {
    if r > 0 {
      NoMembersNoSum(img, la, k, s, j, r - 1);
      RowNoMembersNoSum(img, la, k, s, j, r - 1, la.Length1);
    }
  }

  lemma {:induction false} RowNoMembersNoSum(img: array3<real>, la: array2<int>, k: nat, s: int, j: nat, p: nat, c: nat)
    requires Fits(img, la) && p < la.Length0 && c <= la.Length1 && j < img.Length0 + 3
    requires RowCount(la, k, s, p, c) == 0
    ensures RowSum(img, la, k, s, j, p, c) == 0.0
  {
    if c > 0 {
      RowNoMembersNoSum(img, la, k, s, j, p, c - 1);
    }
  }

  /** Field j is bounded by [0, bound] at every pixel. */
  ghost predicate FieldWithin(img: array3<real>, j: nat, bound: real)
    reads img
  {
    j < img.Length0 + 3 &&
    forall p: nat, q: nat :: p < img.Length1 && q < img.Length2 ==> 0.0 <= Record(img, p, q, 1.0, j) <= bound
  }

  /** A field bounded by [0, bound] at every pixel sums to at most bound per member. */
  lemma {:induction false} SumWithin(img: array3<real>, la: array2<int>, k: nat, s: int, j: nat, bound: real, r: nat)
    requires Fits(img, la) && r <= la.Length0 && FieldWithin(img, j, bound)
    ensures 0.0 <= GridSum(img, la, k, s, j, r) <= Repeated(GridCount(la, k, s, r), bound)
  {
    if r > 0 {
      SumWithin(img, la, k, s, j, bound, r - 1);
      RowSumWithin(img, la, k, s, j, bound, r - 1, la.Length1);
      RepeatedAdd(GridCount(la, k, s, r - 1), RowCount(la, k, s, r - 1, la.Length1), bound);
    }
  }

  lemma {:induction false} RowSumWithin(img: array3<real>, la: array2<int>, k: nat, s: int, j: nat, bound: real, p: nat, c: nat)
    requires Fits(img, la) && p < la.Length0 && c <= la.Length1 && FieldWithin(img, j, bound)
    ensures 0.0 <= RowSum(img, la, k, s, j, p, c) <= Repeated(RowCount(la, k, s, p, c), bound)
  {
    if c > 0 {
      RowSumWithin(img, la, k, s, j, bound, p, c - 1);
    }
  }

  /** The centre of a cluster with members is a finite point of the image: the next search
      window is taken around a pixel of the image. */
  lemma CentreInImage(img: array3<real>, la: array2<int>, k: nat, s: int)
    requires Fits(img, la) && GridCount(la, k, s, la.Length0) > 0
    ensures Centre(img, la, k, s, img.Length0).Fin? && Centre(img, la, k, s, img.Length0 + 1).Fin?
    ensures 0.0 <= Centre(img, la, k, s, img.Length0).v <= (la.Length0 - 1) as real
    ensures 0.0 <= Centre(img, la, k, s, img.Length0 + 1).v <= (la.Length1 - 1) as real
  {
    var n := GridCount(la, k, s, la.Length0) as real;
    CountField(img, la, k, s, la.Length0);
    SumWithin(img, la, k, s, img.Length0, (la.Length0 - 1) as real, la.Length0);
    SumWithin(img, la, k, s, img.Length0 + 1, (la.Length1 - 1) as real, la.Length0);
    RepeatedProduct(GridCount(la, k, s, la.Length0), (la.Length0 - 1) as real);
    RepeatedProduct(GridCount(la, k, s, la.Length0), (la.Length1 - 1) as real);
    MeanBelow(GridSum(img, la, k, s, img.Length0, la.Length0), n, (la.Length0 - 1) as real);
    MeanBelow(GridSum(img, la, k, s, img.Length0 + 1, la.Length0), n, (la.Length1 - 1) as real);
  }

  lemma MeanBelow(sum: real, n: real, bound: real)
    requires n > 0.0 && 0.0 <= sum <= n * bound
    ensures 0.0 <= sum / n <= bound
  {
    assert sum / n * n == sum;
  }

  // ---------------------------------------------------------------------------------------
  // Every pixel is counted in exactly one cluster
  // ---------------------------------------------------------------------------------------

  /** Members of clusters 0 .. n-1 among the first r rows. */
  ghost function Census(la: array2<int>, k: nat, n: nat, r: nat): nat
    requires r <= la.Length0
    reads la
  {
    if n == 0 then 0 else Census(la, k, n - 1, r) + GridCount(la, k, n - 1, r)
  }

  /** Members of clusters 0 .. n-1 among the first c pixels of row p. */
  ghost function RowCensus(la: array2<int>, k: nat, n: nat, p: nat, c: nat): nat
    requires p < la.Length0 && c <= la.Length1
    reads la
  {
    if n == 0 then 0 else RowCensus(la, k, n - 1, p, c) + RowCount(la, k, n - 1, p, c)
  }

  /** When every label addresses a row, the clusters' member counts add up to the pixel count. */
  lemma {:induction false} Partition(la: array2<int>, k: nat)
    requires AllSlotted(la, k)
    ensures Census(la, k, k, la.Length0) == la.Length0 * la.Length1
  {
    CensusRows(la, k, la.Length0);
  }

  lemma {:induction false} CensusRows(la: array2<int>, k: nat, r: nat)
    requires AllSlotted(la, k) && r <= la.Length0
    ensures Census(la, k, k, r) == r * la.Length1
  {
    if r == 0 {
      CensusZero(la, k, k);
    } else {
      CensusRows(la, k, r - 1);
      CensusStep(la, k, k, r - 1);
      RowCensusFull(la, k, r - 1, la.Length1);
      assert r * la.Length1 == (r - 1) * la.Length1 + la.Length1;
    }
  }

  lemma {:induction false} CensusZero(la: array2<int>, k: nat, n: nat)
    ensures Census(la, k, n, 0) == 0
  {
    if n > 0 {
      CensusZero(la, k, n - 1);
    }
  }

  lemma {:induction false} CensusStep(la: array2<int>, k: nat, n: nat, p: nat)
    requires p < la.Length0
    ensures Census(la, k, n, p + 1) == Census(la, k, n, p) + RowCensus(la, k, n, p, la.Length1)
  {
    if n > 0 {
      CensusStep(la, k, n - 1, p);
    }
  }

  lemma {:induction false} RowCensusFull(la: array2<int>, k: nat, p: nat, c: nat)
    requires AllSlotted(la, k) && p < la.Length0 && c <= la.Length1
    ensures RowCensus(la, k, k, p, c) == c
  {
    if c == 0 {
      RowCensusZero(la, k, k, p);
    } else {
      RowCensusFull(la, k, p, c - 1);
      RowCensusStep(la, k, k, p, c - 1);
    }
  }

  lemma {:induction false} RowCensusZero(la: array2<int>, k: nat, n: nat, p: nat)
    requires p < la.Length0
    ensures RowCensus(la, k, n, p, 0) == 0
  {
    if n > 0 {
      RowCensusZero(la, k, n - 1, p);
    }
  }

  /** Pixel (p, c) adds one to the census of clusters 0 .. n-1 exactly when its slot is below n. */
  lemma {:induction false} RowCensusStep(la: array2<int>, k: nat, n: nat, p: nat, c: nat)
    requires p < la.Length0 && c < la.Length1 && 0 <= Slot(la[p, c], k)
    ensures RowCensus(la, k, n, p, c + 1) == RowCensus(la, k, n, p, c) + (if Slot(la[p, c], k) < n then 1 else 0)
  {
    if n > 0 {
      RowCensusStep(la, k, n - 1, p, c);
    }
  }
}

=== FILE: driver.dfy ===
/** The clustering iterations: for every cluster in turn, search its window, ask the distance
    engine for the window's distance field and merge it into the maps; after every sweep
    recompute the cluster table from the labels. */
module Driver {
  import opened Floats
  import opened Faults
  import opened Raster
  import opened Assignment
  import opened Centroids
  import Lattice

  /** The distance engine (`distance_fast`, falling back to `distance`): from the window's
      pixels indexed (band, row, column), the cluster's mean series and the centre's position
      in the window, a field of spatio-temporal distances. The weights, spacing and warping
      settings it also receives are fixed for a run and captured in the function. The window
      offset (`rmin`, `cmin`) changes with every cluster but is not read by either backend, so it
      is not passed. */
  type Engine = (seq<seq<seq<real>>>, seq<Float>, int, int) -> seq<seq<Float>>

  /** `img[:, top:top+h, left:left+w]`. */
  function Subimage(img: array3<real>, top: nat, left: nat, h: nat, w: nat): seq<seq<seq<real>>>
    requires top + h <= img.Length1 && left + w <= img.Length2
    reads img
  {
    seq(img.Length0, b requires 0 <= b < img.Length0 reads img =>
      seq(h, i requires 0 <= i < h reads img =>
        seq(w, j requires 0 <= j < w reads img => img[b, top + i, left + j])))
  }

  /** `C[kk, :bands]`: the cluster's mean series. */
  function Series(C: array2<Float>, kk: nat, bands: nat): seq<Float>
    requires kk < C.Length0 && bands <= C.Length1
    reads C
  {
    seq(bands, b requires 0 <= b < bands reads C => C[kk, b])
  }

  /** Every labelled pixel holds a distance strictly below infinity. */
  ghost predicate Assigned(l: array2<int>, d: array2<Float>)
    reads l, d
  {
    l.Length0 == d.Length0 && l.Length1 == d.Length1 &&
    forall p, q :: 0 <= p < l.Length0 && 0 <= q < l.Length1 && l[p, q] != -1 ==> Less(d[p, q], PosInf)
  }

  /** Since `old`, no distance rose and no label changed without a strict drop in distance. */
  twostate predicate Improved(l: array2<int>, d: array2<Float>)
    reads l, d
  {
    l.Length0 == d.Length0 && l.Length1 == d.Length1 &&
    forall p, q :: 0 <= p < l.Length0 && 0 <= q < l.Length1 ==>
      NotAbove(d[p, q], old(d[p, q])) && (l[p, q] != old(l[p, q]) ==> Less(d[p, q], old(d[p, q])))
  }

  /** One cluster's assignment step: its search window, the engine's field over the window, and
      the merge of that field into the label and distance maps. */
  method AssignCluster(img: array3<real>, C: array2<Float>, S: nat, l: array2<int>, d: array2<Float>, kk: nat, engine: Engine)
    returns (res: Result<()>)
    requires Covers(img, l, d) && kk < C.Length0 && C.Length1 == img.Length0 + 3 && C != d
    modifies l, d
    ensures var w := SearchWindow(C[kk, img.Length0], C[kk, img.Length0 + 1], S, img.Length1, img.Length2);
      w.Err? ==> res == Err(w.fault)
    ensures res.Ok? ==> SearchWindow(C[kk, img.Length0], C[kk, img.Length0 + 1], S, img.Length1, img.Length2).Ok?
    ensures res.Ok? ==> (
      var w := SearchWindow(C[kk, img.Length0], C[kk, img.Length0 + 1], S, img.Length1, img.Length2).value;
      var top, left := Top(w, img.Length1), Left(w, img.Length2);
      var h, wd := Height(w, img.Length1), Width(w, img.Length2);
      var D := engine(Subimage(img, top, left, h, wd), Series(C, kk, img.Length0), w.ic, w.jc);
      Shaped(D, h, wd) &&
      (forall p, q :: top <= p < top + h && left <= q < left + wd ==>
        (d[p, q], l[p, q]) == MergeCell(D[p - top][q - left], old(d[p, q]), old(l[p, q]), kk)) &&
      (forall p, q :: 0 <= p < l.Length0 && 0 <= q < l.Length1 && !(top <= p < top + h && left <= q < left + wd) ==>
        l[p, q] == old(l[p, q]) && d[p, q] == old(d[p, q])))
    ensures res.Err? ==> res.fault == NonFiniteCentre || res.fault == FieldShape
    // the step fails with FieldShape exactly when the window is defined and the field misses its shape
    ensures var w := SearchWindow(C[kk, img.Length0], C[kk, img.Length0 + 1], S, img.Length1, img.Length2);
      res == Err(FieldShape) <==> (w.Ok? && (
        var top, left := Top(w.value, img.Length1), Left(w.value, img.Length2);
        var h, wd := Height(w.value, img.Length1), Width(w.value, img.Length2);
        !Shaped(engine(Subimage(img, top, left, h, wd), Series(C, kk, img.Length0), w.value.ic, w.value.jc), h, wd)))
    ensures res.Err? ==> unchanged(l, d)
    ensures Improved(l, d)
    ensures forall p, q :: 0 <= p < l.Length0 && 0 <= q < l.Length1 ==> l[p, q] == old(l[p, q]) || l[p, q] == kk
  {
    var bands, rows, columns := img.Length0, img.Length1, img.Length2;
    var window := SearchWindow(C[kk, bands], C[kk, bands + 1], S, rows, columns);
    if window.Err? {
      return Err(window.fault);
    }
    var w := window.value;
    var top, left, h, wd := Top(w, rows), Left(w, columns), Height(w, rows), Width(w, columns);
    var D := engine(Subimage(img, top, left, h, wd), Series(C, kk, bands), w.ic, w.jc);
    if !Shaped(D, h, wd) {
      return Err(FieldShape);
    }
    MergeWindow(l, d, D, top, left, h, wd, kk);
    return Ok(());
  }

  /** `for n in range(iter)`: a sweep over the k clusters in index order, then the update of the
      cluster table from the label map. Answers the last table. */
  method Iterate(img: array3<real>, C0: array2<Float>, S: nat, l: array2<int>, d: array2<Float>, k: nat, iter: nat, engine: Engine)
    returns (res: Result<array2<Float>>)
    requires Covers(img, l, d) && k <= C0.Length0 && C0.Length1 == img.Length0 + 3 && C0 != d
    requires Labelled(l, k) && Assigned(l, d)
    modifies l, d
    ensures Labelled(l, k) && Assigned(l, d) && Improved(l, d)
    ensures iter == 0 ==> res == Ok(C0)
    // with at least one cluster every label addresses a table row, so only a sweep can fail
    ensures k >= 1 && res.Err? ==> res.fault == NonFiniteCentre || res.fault == FieldShape
    ensures iter > 0 && res.Ok? ==> (res.value.Length0 == k && res.value.Length1 == img.Length0 + 3 &&
      forall s, j :: 0 <= s < k && 0 <= j < img.Length0 + 3 ==> res.value[s, j] == Centre(img, l, k, s, j))
  {
    var bands := img.Length0;
    var C := C0;
    for n := 0 to iter
      invariant k <= C.Length0 && C.Length1 == bands + 3 && C != d
      invariant Labelled(l, k) && Assigned(l, d) && Improved(l, d)
      invariant n == 0 ==> C == C0
      invariant n > 0 ==> (C.Length0 == k &&
        forall s, j :: 0 <= s < k && 0 <= j < bands + 3 ==> C[s, j] == Centre(img, l, k, s, j))
    {
      for kk := 0 to k
        invariant Labelled(l, k) && Assigned(l, d) && Improved(l, d)
      {
        label before:
        var step := AssignCluster(img, C, S, l, d, kk, engine);
        forall p, q | 0 <= p < l.Length0 && 0 <= q < l.Length1
          ensures NotAbove(d[p, q], old(d[p, q])) && (l[p, q] != old(l[p, q]) ==> Less(d[p, q], old(d[p, q])))
          ensures l[p, q] != -1 ==> Less(d[p, q], PosInf)
        {
          Chain(d[p, q], old@before(d[p, q]), old(d[p, q]));
          Chain(d[p, q], old@before(d[p, q]), PosInf);
        }
        if step.Err? {
          return Err(step.fault);
        }
      }
      if k >= 1 {
        LabelledSlotted(l, k);
      }
      var update := UpdateCluster(img, l, k);
      if update.Err? {
        return Err(update.fault);
      }
      C := update.value;
    }
    return Ok(C);
  }

  /** After an update, the search window of a cluster that has members is well defined and
      holds the cluster's own centre pixel. */
  lemma NextWindowHoldsCentre(img: array3<real>, la: array2<int>, k: nat, s: int, S: nat)
    requires Fits(img, la) && GridCount(la, k, s, la.Length0) > 0
    ensures var w := SearchWindow(Centre(img, la, k, s, img.Length0), Centre(img, la, k, s, img.Length0 + 1), S, img.Length1, img.Length2);
      w.Ok? && 0 <= w.value.ic < Height(w.value, img.Length1) && 0 <= w.value.jc < Width(w.value, img.Length2)
  {
    CentreInImage(img, la, k, s);
  }

  /** The seeding pattern: the hexagonal lattice (with its derived node counts and spacings, and
      the rounded spacing S the windows use) or the regular grid for a requested count ki. */
  datatype Pattern = Hexagonal(h: Lattice.HexLattice, S: nat) | Regular(ki: nat)

  /** The clustering part of `snitc`: seed the table, then run `iter` sweeps. Answers the label
      map before post-processing; every label is -1 or one of the k seeded clusters. */
  method Segment(img: array3<real>, pattern: Pattern, iter: nat, engine: Engine) returns (res: Result<array2<int>>)
    requires pattern.Hexagonal? ==> Lattice.HexFits(pattern.h, img.Length1, img.Length2)
    // the window spacing is `round(S)` of the lattice spacing
    requires pattern.Hexagonal? ==> pattern.S as real - 0.5 <= pattern.h.S <= pattern.S as real + 0.5
    ensures res.Ok? ==> res.value.Length0 == img.Length1 && res.value.Length1 == img.Length2
    ensures pattern.Hexagonal? && res.Ok? ==> Labelled(res.value, pattern.h.nodeRows * pattern.h.nodeColumns)
    ensures pattern.Regular? && res.Ok? ==>
      Lattice.RegularGeometry(img.Length1, img.Length2, pattern.ki).Ok? &&
      var g := Lattice.RegularGeometry(img.Length1, img.Length2, pattern.ki).value;
      Labelled(res.value, |Lattice.Product(Lattice.SeedRows(g, img.Length1), Lattice.SeedColumns(g, img.Length2))|)
  {
    var C, S, l, d, k;
    if pattern.Hexagonal? {
      C, l, d, k := Lattice.InitClusterHex(img, pattern.h);
      S := pattern.S;
    } else {
      var seeding := Lattice.InitClusterRegular(img, pattern.ki);
      if seeding.Err? {
        return Err(seeding.fault);
      }
      C, S, l, d, k := seeding.value.C, seeding.value.S, seeding.value.l, seeding.value.d, seeding.value.k;
    }
    var swept := Iterate(img, C, S, l, d, k, iter, engine);
    if swept.Err? {
      return Err(swept.fault);
    }
    return Ok(l);
  }
}

=== FILE: floats.dfy ===
/** Double-precision values as the clustering engine uses them. A finite value is held
    exactly (rounding is not modelled); the two infinities and NaN are kept, because the
    distance map starts at +infinity, the distance engine may answer infinity, and a
    cluster that lost all its pixels gets 0/0 = NaN in every field. */
module Floats {

  datatype Float = Fin(v: real) | PosInf | NegInf | NaN

  /** IEEE 754 ordered comparison `a < b`: false whenever either side is NaN. */
  predicate Less(a: Float, b: Float)
  {
    if a.NaN? || b.NaN? then false
    else if a.Fin? && b.Fin? then a.v < b.v
    else (a.NegInf? && !b.NegInf?) || (!a.PosInf? && b.PosInf?)
  }

  /** `a` equals `b` or lies strictly below it. */
  predicate NotAbove(a: Float, b: Float)
  {
    a == b || Less(a, b)
  }

  /** The IEEE order chains: NaN never takes part in a strict comparison. */
  lemma Chain(a: Float, b: Float, c: Float)
    ensures NotAbove(a, b) && Less(b, c) ==> Less(a, c)
    ensures Less(a, b) && NotAbove(b, c) ==> Less(a, c)
    ensures NotAbove(a, b) && NotAbove(b, c) ==> NotAbove(a, c)
    ensures Less(a, b) ==> Less(a, PosInf)
  {
  }

  /** Double addition of a finite amount: infinities and NaN absorb it. */
  function Plus(a: Float, x: real): (s: Float)
    ensures a.Fin? <==> s.Fin?
    ensures a.Fin? ==> s.v == a.v + x
  {
    if a.Fin? then Fin(a.v + x) else a
  }

  /** x added n times, starting from 0. Kept free of multiplication, so that bounds about
      accumulated sums and positions stay linear. */
  function Repeated(n: nat, x: real): real
  {
    if n == 0 then 0.0 else Repeated(n - 1, x) + x
  }

  lemma {:induction false} RepeatedAdd(a: nat, b: nat, x: real)
    ensures Repeated(a + b, x) == Repeated(a, x) + Repeated(b, x)
  {
    if b > 0 {
      RepeatedAdd(a, b - 1, x);
    }
  }

  lemma {:induction false} RepeatedProduct(n: nat, x: real)
    ensures Repeated(n, x) == n as real * x
  {
    if n > 0 {
      RepeatedProduct(n - 1, x);
      assert n as real * x == (n - 1) as real * x + x;
    }
  }

  lemma {:induction false} RepeatedAtLeast(n: nat, x: real)
    requires x >= 0.0
    ensures 0.0 <= Repeated(n, x)
    ensures n >= 1 ==> x <= Repeated(n, x)
  {
    if n > 0 {
      RepeatedAtLeast(n - 1, x);
    }
  }

  /** Double division `a / b` of two finite values: x/0 is NaN when x is 0 and an infinity otherwise. */
  function Quotient(a: real, b: real): (q: Float)
    ensures b != 0.0 <==> q.Fin?
    ensures b != 0.0 ==> q.v * b == a
    ensures b == 0.0 && a == 0.0 ==> q.NaN?
    ensures b == 0.0 && a > 0.0 ==> q.PosInf?
    ensures b == 0.0 && a < 0.0 ==> q.NegInf?
  {
    if b != 0.0 then Fin(a / b)
    else if a == 0.0 then NaN
    else if a > 0.0 then PosInf
    else NegInf
  }
}

/** The ways the modelled code stops with an exception, and a result type carrying them. */
module Faults {

  datatype Fault =
    | DivisionByZero    // ZeroDivisionError from `N/ki` or `rows/base`
    | ZeroRangeStep     // ValueError from `range(start, stop, 0)`
    | TableOverflow     // a seed written past the last row of the cluster table
    | NonFiniteCentre   // ValueError/OverflowError from `int(numpy.floor(nan or inf))`
    | FieldShape        // the distance field does not have the window's shape
    | LabelOutOfRange   // `C_new[label]` outside the table, even with negative indexing

  datatype Result<T> = Ok(value: T) | Err(fault: Fault)
}

=== FILE: lattice.dfy ===
/** The two seed initialisers: a square lattice whose spacings are integer square roots, and a
    hexagonal lattice whose (floating-point) spacings are derived by the caller. Both fill the
    cluster table row by row with a running counter and return an all-unassigned label map and
    an all-infinite distance map. */
module Lattice {
  import opened Floats
  import opened Faults
  import opened Raster

  // ---------------------------------------------------------------------------------------
  // Integer arithmetic
  // ---------------------------------------------------------------------------------------

  lemma MulMono(a: nat, b: nat, c: nat)
    requires a <= b
    ensures a * c <= b * c
  {
    assert b * c == a * c + (b - a) * c;
  }

  lemma SquareMono(a: nat, b: nat, q: nat)
    requires a <= b
    ensures a * a * q <= b * b * q
  {
    MulMono(a, b, a);
    MulMono(a, b, b);
    MulMono(a * a, b * b, q);
  }

  /** The largest r <= s with r*r*q <= n, searching down from s. */
  function FloorRootBelow(n: nat, q: nat, s: nat): (r: nat)
    requires q >= 1 && n < (s + 1) * (s + 1) * q
    ensures r <= s && r * r * q <= n < (r + 1) * (r + 1) * q
    decreases s
  {
    if s * s * q <= n then s else FloorRootBelow(n, q, s - 1)
  }

  /** `int(sqrt(n / q))` without rounding: the largest s with s*s*q <= n. */
  function FloorRoot(n: nat, q: nat): (s: nat)
    requires q >= 1
    ensures s * s * q <= n < (s + 1) * (s + 1) * q
  {
    SquareMono(1, n + 1, q);
    FloorRootBelow(n, q, n)
  }

  /** The bracketing of FloorRoot determines it: any s with s*s*q <= n < (s+1)*(s+1)*q is FloorRoot(n, q). */
  lemma {:induction false} FloorRootUnique(n: nat, q: nat, s: nat)
    requires q >= 1 && s * s * q <= n < (s + 1) * (s + 1) * q
    ensures s == FloorRoot(n, q)
  {
    var t := FloorRoot(n, q);
    if s < t {
      SquareMono(s + 1, t, q);
    } else if t < s {
      SquareMono(t + 1, s, q);
    }
  }

  /** Python's `range(start, stop, step)` for a positive step. */
  function Range(start: int, stop: int, step: nat): (xs: seq<int>)
    requires step >= 1
    ensures |xs| == 0 <==> start >= stop
    ensures forall i :: 0 <= i < |xs| ==> start <= xs[i] < stop
    decreases stop - start
  {
    if start >= stop then [] else [start] + Range(start + step, stop, step)
  }

  /** Element i of `range(start, stop, step)` is `start + i*step`. */
  lemma {:induction false} RangeAt(start: int, stop: int, step: nat, i: nat)
    requires step >= 1 && i < |Range(start, stop, step)|
    ensures Range(start, stop, step)[i] == start + i * step
    decreases i
  {
    if i > 0 {
      RangeAt(start + step, stop, step, i - 1);
      assert (i - 1) * step + step == i * step;
    }
  }

  /** `range(start, stop, step)` stops at the first element that would reach stop. */
  lemma {:induction false} RangeEnd(start: int, stop: int, step: nat)
    requires step >= 1
    ensures start + |Range(start, stop, step)| * step >= stop
    decreases stop - start
  {
    if start < stop {
      var n := |Range(start + step, stop, step)|;
      RangeEnd(start + step, stop, step);
      assert (n + 1) * step == n * step + step;
    }
  }

  /** Node (i, j) of a lattice `width` nodes wide, numbered row by row: row `i * width + j` of the table. */
  function Flat(i: nat, j: nat, height: nat, width: nat): (t: nat)
    requires i < height && j < width
    ensures t < height * width
  {
    MulMono(i + 1, height, width);
    i * width + j
  }

  /** Distinct nodes get distinct table rows. */
  lemma FlatInjective(height: nat, width: nat)
    ensures forall i: nat, j: nat, i': nat, j': nat ::
      (i < height && j < width && i' < height && j' < width && Flat(i, j, height, width) == Flat(i', j', height, width))
      ==> i == i' && j == j'
  {
    forall i: nat, j: nat, i': nat, j': nat |
      i < height && j < width && i' < height && j' < width && Flat(i, j, height, width) == Flat(i', j', height, width)
      ensures i == i' && j == j'
    {
      if i < i' {
        MulMono(i + 1, i', width);
      } else if i' < i {
        MulMono(i' + 1, i, width);
      }
    }
  }

  // ---------------------------------------------------------------------------------------
  // Regular (square) lattice
  // ---------------------------------------------------------------------------------------

  /** The integers `init_cluster_regular` derives from the image size and the requested count:
      spacing S, first offset base, allocated row count k and the two lattice steps. */
  datatype RegularGrid = RegularGrid(S: nat, base: nat, k: nat, vSpacing: nat, hSpacing: nat)

  /** The rows the outer loop visits: `range(base, rows, vSpacing)`. */
  function SeedRows(g: RegularGrid, rows: nat): seq<int>
    requires g.vSpacing >= 1
  {
    Range(g.base, rows, g.vSpacing)
  }

  /** The columns the inner loop visits: `range(base, columns, hSpacing)`; a zero step is only
      harmless when the inner loop is never reached, and then nothing is visited. */
  function SeedColumns(g: RegularGrid, columns: nat): seq<int>
  {
    if g.hSpacing == 0 then [] else Range(g.base, columns, g.hSpacing)
  }

  /** Number of seeds the nested loops write. */
  function Placed(g: RegularGrid, rows: nat, columns: nat): nat
    requires g.vSpacing >= 1
  {
    |SeedRows(g, rows)| * |SeedColumns(g, columns)|
  }

  /** Rows allocated for the cluster table: `floor(rows/base) * floor(columns/base)`. */
  function TableRows(rows: nat, columns: nat, base: nat): nat
    requires base >= 1
  {
    (rows / base) * (columns / base)
  }

  /** The grid `init_cluster_regular` computes once ki is non-zero: the three integer roots, the
      offset base, and the allocated row count (0 when base is 0, where `rows/base` raises). */
  function RegularCandidate(rows: nat, columns: nat, ki: nat): (g: RegularGrid)
    requires ki >= 1
    ensures g.S == FloorRoot(rows * columns, ki) && g.base == g.S / 2
    ensures g.vSpacing == FloorRoot(rows * rows, ki) && g.hSpacing == FloorRoot(columns * columns, ki)
    ensures g.base >= 1 <==> 4 * ki <= rows * columns
    ensures g.vSpacing >= 1 <==> ki <= rows * rows
    ensures g.hSpacing >= 1 <==> ki <= columns * columns
    ensures g.k == if g.base == 0 then 0 else TableRows(rows, columns, g.base)
  {
    var S := FloorRoot(rows * columns, ki);
    var v, h := FloorRoot(rows * rows, ki), FloorRoot(columns * columns, ki);
    RootAtLeastTwo(rows * columns, ki, S);
    RootPositive(rows * rows, ki, v);
    RootPositive(columns * columns, ki, h);
    var base := S / 2;
    RegularGrid(S, base, if base == 0 then 0 else TableRows(rows, columns, base), v, h)
  }

  /** The spacings of `init_cluster_regular` and the exceptions it raises before or while filling. */
  function RegularGeometry(rows: nat, columns: nat, ki: nat): (r: Result<RegularGrid>)
    ensures r == Err(DivisionByZero) <==> ki == 0 || rows * columns < 4 * ki
    ensures r.Err? ==> r.fault == DivisionByZero || r.fault == ZeroRangeStep || r.fault == TableOverflow
    ensures r == Err(ZeroRangeStep) <==> (ki >= 1 && 4 * ki <= rows * columns &&
      (rows * rows < ki || (RegularCandidate(rows, columns, ki).base < rows && columns * columns < ki)))
    ensures r == Err(TableOverflow) <==> (ki >= 1 && 4 * ki <= rows * columns && ki <= rows * rows &&
      (RegularCandidate(rows, columns, ki).base >= rows || ki <= columns * columns) &&
      Placed(RegularCandidate(rows, columns, ki), rows, columns) > RegularCandidate(rows, columns, ki).k)
    ensures r.Ok? ==>
      var g := r.value;
      g == RegularCandidate(rows, columns, ki) &&
      g.S == FloorRoot(rows * columns, ki) && g.base == g.S / 2 >= 1 &&
      g.k == TableRows(rows, columns, g.base) &&
      g.vSpacing == FloorRoot(rows * rows, ki) >= 1 &&
      g.hSpacing == FloorRoot(columns * columns, ki) &&
      (g.base < rows ==> g.hSpacing >= 1) &&
      Placed(g, rows, columns) <= g.k
  {
    if ki == 0 then Err(DivisionByZero)
    else
      var g := RegularCandidate(rows, columns, ki);
      if g.base == 0 then Err(DivisionByZero)
      else if g.vSpacing == 0 || (g.base < rows && g.hSpacing == 0) then Err(ZeroRangeStep)
      else if Placed(g, rows, columns) > g.k then Err(TableOverflow)
      else Ok(g)
  }

  lemma RootPositive(n: nat, q: nat, s: nat)
    requires q >= 1 && s * s * q <= n < (s + 1) * (s + 1) * q
    ensures s >= 1 <==> q <= n
  {
    if s >= 1 {
      SquareMono(1, s, q);
    }
  }

  lemma RootAtLeastTwo(n: nat, q: nat, s: nat)
    requires q >= 1 && s * s * q <= n < (s + 1) * (s + 1) * q
    ensures s >= 2 <==> 4 * q <= n
  {
    if s >= 2 {
      SquareMono(2, s, q);
    } else {
      SquareMono(s + 1, 2, q);
    }
  }

  // ---------------------------------------------------------------------------------------
  // Seeds written in lattice order
  // ---------------------------------------------------------------------------------------

  /** The nodes (x, y) for y in ys, in order. */
  function Pairs(x: int, ys: seq<int>): (ps: seq<(int, int)>)
    ensures |ps| == |ys|
    ensures forall j :: 0 <= j < |ys| ==> ps[j] == (x, ys[j])
  {
    if ys == [] then [] else Pairs(x, ys[..|ys| - 1]) + [(x, ys[|ys| - 1])]
  }

  /** The nodes of xs x ys in the order two nested loops visit them: row by row. */
  function Product(xs: seq<int>, ys: seq<int>): seq<(int, int)>
  {
    if xs == [] then [] else Product(xs[..|xs| - 1], ys) + Pairs(xs[|xs| - 1], ys)
  }

  /** The product has |xs| * |ys| nodes. */
  lemma {:induction false} ProductSize(xs: seq<int>, ys: seq<int>)
    ensures |Product(xs, ys)| == |xs| * |ys|
  {
    if xs != [] {
      ProductSize(xs[..|xs| - 1], ys);
      assert |xs| * |ys| == (|xs| - 1) * |ys| + |ys|;
    }
  }

  /** Each outer step appends one full row of |ys| nodes: the first i rows leave room for row i. */
  lemma {:induction false} ProductRoom(xs: seq<int>, ys: seq<int>, i: nat)
    requires i < |xs|
    ensures Product(xs[..i + 1], ys) == Product(xs[..i], ys) + Pairs(xs[i], ys)
    ensures |Product(xs[..i], ys)| + |ys| <= |Product(xs, ys)|
    decreases |xs|
  {
    assert xs[..i + 1][..i] == xs[..i];
    if i + 1 < |xs| {
      ProductRoom(xs[..|xs| - 1], ys, i);
      assert xs[..|xs| - 1][..i + 1] == xs[..i + 1];
      assert xs[..|xs| - 1][..i] == xs[..i];
    } else {
      assert xs[..i + 1] == xs;
    }
  }

  /** Node (i, j) of xs x ys is entry `i * |ys| + j` of the row-major order. */
  lemma {:induction false} ProductAt(xs: seq<int>, ys: seq<int>, i: nat, j: nat)
    requires i < |xs| && j < |ys|
    ensures Flat(i, j, |xs|, |ys|) < |Product(xs, ys)|
    ensures Product(xs, ys)[Flat(i, j, |xs|, |ys|)] == (xs[i], ys[j])
  {
    ProductSize(xs, ys);
    var init := xs[..|xs| - 1];
    ProductSize(init, ys);
    if i < |init| {
      ProductAt(init, ys, i, j);
      assert Flat(i, j, |xs|, |ys|) == Flat(i, j, |init|, |ys|);
    } else {
      assert Flat(i, j, |xs|, |ys|) == |init| * |ys| + j;
    }
  }

  /** Every seed is a pixel of the image. */
  predicate InImage(img: array3<real>, seeds: seq<(int, int)>)
  {
    forall t :: 0 <= t < |seeds| ==> 0 <= seeds[t].0 < img.Length1 && 0 <= seeds[t].1 < img.Length2
  }

  /** Rows 0 .. |seeds|-1 of the cluster table hold, in order, the seeds sampled at those pixels
      with pixel count 0, as `numpy.append(img[:, r, c], [r, c, 0])`. */
  ghost predicate Seeded(C: array2<Float>, img: array3<real>, seeds: seq<(int, int)>)
    reads C, img
  {
    |seeds| <= C.Length0 && C.Length1 == img.Length0 + 3 && InImage(img, seeds) &&
    forall t, f :: 0 <= t < |seeds| && 0 <= f < C.Length1 ==>
      C[t, f] == Fin(Record(img, seeds[t].0, seeds[t].1, 0.0, f))
  }

  /** Rows from `from` on are still the zeros they were allocated with. */
  ghost predicate Zeroed(C: array2<Float>, from: nat)
    reads C
  {
    forall t, f :: from <= t < C.Length0 && 0 <= f < C.Length1 ==> C[t, f] == Fin(0.0)
  }

  /** `C[kk, :] = numpy.append(img[:, r, c], [r, c, 0])`. */
  method PutSeed(C: array2<Float>, img: array3<real>, kk: nat, r: nat, c: nat, ghost seeds: seq<(int, int)>)
    requires Seeded(C, img, seeds) && Zeroed(C, kk) && kk == |seeds| < C.Length0
    requires r < img.Length1 && c < img.Length2
    modifies C
    ensures Seeded(C, img, seeds + [(r, c)]) && Zeroed(C, kk + 1)
  {
    forall f | 0 <= f < C.Length1 {
      C[kk, f] := Fin(Record(img, r, c, 0.0, f));
    }
    ghost var now := seeds + [(r, c)];
    assert InImage(img, now) by {
      assert forall t :: 0 <= t < kk ==> now[t] == seeds[t];
    }
    forall t, f | 0 <= t < |now| && 0 <= f < C.Length1
      ensures C[t, f] == Fin(Record(img, now[t].0, now[t].1, 0.0, f))
    {
      if t < kk {
        assert now[t] == seeds[t];
      }
    }
  }

  // ---------------------------------------------------------------------------------------
  // The two initialisers
  // ---------------------------------------------------------------------------------------

  /** What an initialiser returns: the cluster table C, the spacing S, the label map l, the
      distance map d and the number k of seeds actually written. */
  datatype Seeding = Seeding(C: array2<Float>, S: nat, l: array2<int>, d: array2<Float>, k: nat)

  /** `init_cluster_regular`: seeds at every (x, y) of `range(base, rows, vSpacing)` x
      `range(base, columns, hSpacing)`, written row-major from table row 0; the remaining
      allocated rows stay zero and the returned count is the number written, not the allocation. */
  method InitClusterRegular(img: array3<real>, ki: nat) returns (res: Result<Seeding>)
    ensures RegularGeometry(img.Length1, img.Length2, ki).Err? ==>
      res == Err(RegularGeometry(img.Length1, img.Length2, ki).fault)
    ensures RegularGeometry(img.Length1, img.Length2, ki).Ok? ==> (res.Ok? && (
      var g, s := RegularGeometry(img.Length1, img.Length2, ki).value, res.value;
      var seeds := Product(SeedRows(g, img.Length1), SeedColumns(g, img.Length2));
      fresh(s.C) && fresh(s.l) && fresh(s.d) && s.C != s.d && s.S == g.S &&
      s.k == |seeds| == Placed(g, img.Length1, img.Length2) &&
      s.C.Length0 == g.k && s.l.Length0 == img.Length1 && s.l.Length1 == img.Length2 && Blank(s.l, s.d) &&
      Seeded(s.C, img, seeds) && Zeroed(s.C, s.k)))
  {
    var geometry := RegularGeometry(img.Length1, img.Length2, ki);
    if geometry.Err? {
      return Err(geometry.fault);
    }
    var g := geometry.value;
    RoomForSeeds(g, img.Length1, img.Length2);
    var C, kk := FillProduct(img, SeedRows(g, img.Length1), SeedColumns(g, img.Length2), g.k);
    var l, d := NewMaps(img.Length1, img.Length2);
    ProductSize(SeedRows(g, img.Length1), SeedColumns(g, img.Length2));
    res := Ok(Seeding(C, g.S, l, d, kk));
  }

  lemma RoomForSeeds(g: RegularGrid, rows: nat, columns: nat)
    requires g.vSpacing >= 1 && Placed(g, rows, columns) <= g.k
    ensures |Product(SeedRows(g, rows), SeedColumns(g, columns))| <= g.k
  {
    ProductSize(SeedRows(g, rows), SeedColumns(g, columns));
  }

  /** The nested loops of `init_cluster_regular`: one seed per (x, y) of xs x ys, row-major,
      into a zeroed table of k rows with room for all of them. */
  method FillProduct(img: array3<real>, xs: seq<int>, ys: seq<int>, k: nat) returns (C: array2<Float>, kk: nat)
    requires forall i :: 0 <= i < |xs| ==> 0 <= xs[i] < img.Length1
    requires forall j :: 0 <= j < |ys| ==> 0 <= ys[j] < img.Length2
    requires |Product(xs, ys)| <= k
    ensures fresh(C) && C.Length0 == k
    ensures kk == |Product(xs, ys)| && Seeded(C, img, Product(xs, ys)) && Zeroed(C, kk)
  {
    C := new Float[k, img.Length0 + 3]((_, _) => Fin(0.0));
    kk := FillRows(C, img, xs, ys);
  }

  /** The outer loop of `init_cluster_regular`: one lattice row of seeds per x in xs. */
  method FillRows(C: array2<Float>, img: array3<real>, xs: seq<int>, ys: seq<int>) returns (kk: nat)
    requires forall i :: 0 <= i < |xs| ==> 0 <= xs[i] < img.Length1
    requires forall j :: 0 <= j < |ys| ==> 0 <= ys[j] < img.Length2
    requires |Product(xs, ys)| <= C.Length0 && C.Length1 == img.Length0 + 3 && Zeroed(C, 0)
    modifies C
    ensures kk == |Product(xs, ys)| && Seeded(C, img, Product(xs, ys)) && Zeroed(C, kk)
  {
    kk := 0;
    ghost var seeds: seq<(int, int)> := [];
    for i := 0 to |xs|
      invariant seeds == Product(xs[..i], ys) && kk == |seeds|
      invariant Seeded(C, img, seeds) && Zeroed(C, kk)
    {
      ProductRoom(xs, ys, i);
      kk := PutRow(C, img, xs[i], ys, kk, seeds);
      seeds := seeds + Pairs(xs[i], ys);
    }
    assert xs[..|xs|] == xs;
  }

  /** The inner loop of `init_cluster_regular`: the seeds (x, y) for y in ys, from table row kk on. */
  method PutRow(C: array2<Float>, img: array3<real>, x: int, ys: seq<int>, kk: nat, ghost seeds: seq<(int, int)>)
    returns (next: nat)
    requires 0 <= x < img.Length1 && forall j :: 0 <= j < |ys| ==> 0 <= ys[j] < img.Length2
    requires Seeded(C, img, seeds) && Zeroed(C, kk) && kk == |seeds| && kk + |ys| <= C.Length0
    modifies C
    ensures next == kk + |ys| && Seeded(C, img, seeds + Pairs(x, ys)) && Zeroed(C, next)
  {
    next := kk;
    ghost var now := seeds;
    for j := 0 to |ys|
      invariant now == seeds + Pairs(x, ys[..j]) && next == |now|
      invariant Seeded(C, img, now) && Zeroed(C, next)
    {
      PutSeed(C, img, next, x, ys[j], now);
      PairsSnoc(x, ys, j);
      now := now + [(x, ys[j])];
      next := next + 1;
    }
    assert ys[..|ys|] == ys;
  }

  lemma PairsSnoc(x: int, ys: seq<int>, j: nat)
    requires j < |ys|
    ensures Pairs(x, ys[..j + 1]) == Pairs(x, ys[..j]) + [(x, ys[j])]
  {
    assert ys[..j + 1][..j] == ys[..j];
  }
  // ---------------------------------------------------------------------------------------
  // Hexagonal lattice
  // ---------------------------------------------------------------------------------------

  /** The lattice `init_cluster_hex` derives from the image size and the requested count:
      nodes per lattice column and row, horizontal spacing S and vertical spacing. */
  datatype HexLattice = HexLattice(nodeRows: nat, nodeColumns: nat, S: real, vSpacing: real)

  /** The relations the derivation establishes between the lattice and the image, as sums of
      spacings: nodeColumns spacings S and half a spacing span the columns, and nodeRows spacings
      vSpacing span the rows; both spacings are positive. */
  predicate HexFits(h: HexLattice, rows: nat, columns: nat)
  {
    h.nodeRows >= 1 && h.S > 0.0 && h.vSpacing > 0.0 &&
    Repeated(h.nodeColumns, h.S) + h.S / 2.0 == columns as real &&
    Repeated(h.nodeRows, h.vSpacing) == rows as real
  }

  /** HexFits says exactly that `S = columns/(nodeColumns + 0.5)` and `vSpacing = rows/nodeRows`. */
  lemma HexFitsQuotients(h: HexLattice, rows: nat, columns: nat)
    requires h.nodeRows >= 1 && h.S > 0.0 && h.vSpacing > 0.0
    ensures HexFits(h, rows, columns) <==>
      h.S == columns as real / (h.nodeColumns as real + 0.5) && h.vSpacing == rows as real / h.nodeRows as real
  {
    RepeatedProduct(h.nodeColumns, h.S);
    RepeatedProduct(h.nodeRows, h.vSpacing);
    assert h.nodeColumns as real * h.S + h.S / 2.0 == h.S * (h.nodeColumns as real + 0.5);
  }

  /** Odd lattice rows start half a spacing in, even ones a full spacing in. */
  function HexFirstColumn(h: HexLattice, ri: nat): real
  {
    if ri % 2 == 1 then h.S / 2.0 else h.S
  }

  /** Vertical position of lattice row ri: half a spacing, then one spacing per row. */
  function HexRowAt(h: HexLattice, ri: nat): real
  {
    h.vSpacing / 2.0 + Repeated(ri, h.vSpacing)
  }

  /** Horizontal position of node ci of lattice row ri. */
  function HexColumnAt(h: HexLattice, ri: nat, ci: nat): real
  {
    HexFirstColumn(h, ri) + Repeated(ci, h.S)
  }

  /** Consecutive rows and consecutive nodes of a row are one spacing apart. */
  lemma HexStep(h: HexLattice, ri: nat, ci: nat)
    ensures HexRowAt(h, ri + 1) == HexRowAt(h, ri) + h.vSpacing
    ensures HexColumnAt(h, ri, ci + 1) == HexColumnAt(h, ri, ci) + h.S
  {
  }

  /** The pixel that lattice node (ri, ci) samples: the floors of its two positions. It always
      lies inside the image. */
  function HexSeed(h: HexLattice, rows: nat, columns: nat, ri: nat, ci: nat): (p: (int, int))
    requires HexFits(h, rows, columns) && ri < h.nodeRows && ci < h.nodeColumns
    ensures 0 <= p.0 < rows && 0 <= p.1 < columns
  {
    HexInside(h, rows, columns, ri, ci);
    (HexRowAt(h, ri).Floor, HexColumnAt(h, ri, ci).Floor)
  }

  /** Node positions lie in [0, rows) x [0, columns): the last row sits half a spacing above the
      bottom edge, and the last node of a row at most half a spacing left of the right edge. */
  lemma HexInside(h: HexLattice, rows: nat, columns: nat, ri: nat, ci: nat)
    requires HexFits(h, rows, columns) && ri < h.nodeRows && ci < h.nodeColumns
    ensures 0.0 <= HexRowAt(h, ri) < rows as real
    ensures 0.0 <= HexColumnAt(h, ri, ci) < columns as real
  {
    RepeatedAdd(ri, h.nodeRows - ri, h.vSpacing);
    RepeatedAtLeast(ri, h.vSpacing);
    RepeatedAtLeast(h.nodeRows - ri, h.vSpacing);
    RepeatedAdd(ci, h.nodeColumns - ci, h.S);
    RepeatedAtLeast(ci, h.S);
    RepeatedAtLeast(h.nodeColumns - ci, h.S);
  }

  /** The first n nodes of lattice row ri, in order. */
  function HexRow(h: HexLattice, rows: nat, columns: nat, ri: nat, n: nat): (ps: seq<(int, int)>)
    requires HexFits(h, rows, columns) && ri < h.nodeRows && n <= h.nodeColumns
    ensures |ps| == n
    ensures forall ci :: 0 <= ci < n ==> ps[ci] == HexSeed(h, rows, columns, ri, ci)
  {
    if n == 0 then [] else HexRow(h, rows, columns, ri, n - 1) + [HexSeed(h, rows, columns, ri, n - 1)]
  }

  /** The nodes of the first m lattice rows, row by row. */
  function HexNodes(h: HexLattice, rows: nat, columns: nat, m: nat): seq<(int, int)>
    requires HexFits(h, rows, columns) && m <= h.nodeRows
  {
    if m == 0 then [] else HexNodes(h, rows, columns, m - 1) + HexRow(h, rows, columns, m - 1, h.nodeColumns)
  }

  /** The first m lattice rows hold m * nodeColumns nodes. */
  lemma {:induction false} HexNodesSize(h: HexLattice, rows: nat, columns: nat, m: nat)
    requires HexFits(h, rows, columns) && m <= h.nodeRows
    ensures |HexNodes(h, rows, columns, m)| == m * h.nodeColumns
  {
    if m > 0 {
      HexNodesSize(h, rows, columns, m - 1);
      assert m * h.nodeColumns == (m - 1) * h.nodeColumns + h.nodeColumns;
    }
  }

  /** Node (ri, ci) of the hexagonal lattice is entry `ri * nodeColumns + ci` of the table. */
  lemma {:induction false} HexNodesAt(h: HexLattice, rows: nat, columns: nat, m: nat, ri: nat, ci: nat)
    requires HexFits(h, rows, columns) && m <= h.nodeRows && ri < m && ci < h.nodeColumns
    ensures Flat(ri, ci, m, h.nodeColumns) < |HexNodes(h, rows, columns, m)|
    ensures HexNodes(h, rows, columns, m)[Flat(ri, ci, m, h.nodeColumns)] == HexSeed(h, rows, columns, ri, ci)
  {
    HexNodesSize(h, rows, columns, m);
    HexNodesSize(h, rows, columns, m - 1);
    if ri < m - 1 {
      HexNodesAt(h, rows, columns, m - 1, ri, ci);
      assert Flat(ri, ci, m, h.nodeColumns) == Flat(ri, ci, m - 1, h.nodeColumns);
    } else {
      assert Flat(ri, ci, m, h.nodeColumns) == (m - 1) * h.nodeColumns + ci;
    }
  }

  /** The lattice fill of `init_cluster_hex`: exactly nodeRows * nodeColumns table rows, the
      seeds of HexNodes in order, each sampled at its pixel with count 0. */
  method InitClusterHex(img: array3<real>, h: HexLattice) returns (C: array2<Float>, l: array2<int>, d: array2<Float>, k: nat)
    requires HexFits(h, img.Length1, img.Length2)
    ensures fresh(C) && fresh(l) && fresh(d) && C != d
    ensures k == h.nodeRows * h.nodeColumns && C.Length0 == k
    ensures l.Length0 == img.Length1 && l.Length1 == img.Length2 && Blank(l, d)
    ensures Seeded(C, img, HexNodes(h, img.Length1, img.Length2, h.nodeRows))
  {
    k := h.nodeRows * h.nodeColumns;
    HexNodesSize(h, img.Length1, img.Length2, h.nodeRows);
    C := new Float[k, img.Length0 + 3]((_, _) => Fin(0.0));
    FillHex(img, h, C);
    l, d := NewMaps(img.Length1, img.Length2);
  }

  /** The two loops of `init_cluster_hex`, walking the node positions by repeated addition of
      the spacings, into a zeroed table with one row per node. */
  method FillHex(img: array3<real>, h: HexLattice, C: array2<Float>)
    requires HexFits(h, img.Length1, img.Length2)
    requires C.Length0 == |HexNodes(h, img.Length1, img.Length2, h.nodeRows)| && C.Length1 == img.Length0 + 3
    requires Zeroed(C, 0)
    modifies C
    ensures Seeded(C, img, HexNodes(h, img.Length1, img.Length2, h.nodeRows))
  {
    var rows, columns := img.Length1, img.Length2;
    var kk := 0;
    var r := h.vSpacing / 2.0;
    ghost var seeds: seq<(int, int)> := [];
    for ri := 0 to h.nodeRows
      invariant r == HexRowAt(h, ri)
      invariant seeds == HexNodes(h, rows, columns, ri) && kk == |seeds|
      invariant Seeded(C, img, seeds) && Zeroed(C, kk)
    {
      HexRoom(h, rows, columns, ri);
      var c := if ri % 2 == 1 then h.S / 2.0 else h.S;
      ghost var before := seeds;
      for ci := 0 to h.nodeColumns
        invariant c == HexColumnAt(h, ri, ci)
        invariant seeds == before + HexRow(h, rows, columns, ri, ci) && kk == |seeds|
        invariant Seeded(C, img, seeds) && Zeroed(C, kk)
      {
        var cc := c.Floor;
        var rr := r.Floor;
        assert (rr, cc) == HexSeed(h, rows, columns, ri, ci);
        assert HexRow(h, rows, columns, ri, ci + 1) == HexRow(h, rows, columns, ri, ci) + [(rr, cc)];
        PutSeed(C, img, kk, rr, cc, seeds);
        seeds := seeds + [(rr, cc)];
        HexStep(h, ri, ci);
        c := c + h.S;
        kk := kk + 1;
      }
      HexStep(h, ri, 0);
      r := r + h.vSpacing;
    }
  }

  /** Each lattice row appends nodeColumns nodes and fits in the table. */
  lemma HexRoom(h: HexLattice, rows: nat, columns: nat, ri: nat)
    requires HexFits(h, rows, columns) && ri < h.nodeRows
    ensures |HexNodes(h, rows, columns, ri)| + h.nodeColumns <= |HexNodes(h, rows, columns, h.nodeRows)|
  {
    HexNodesSize(h, rows, columns, ri + 1);
    HexNodesSize(h, rows, columns, h.nodeRows);
    MulMono(ri + 1, h.nodeRows, h.nodeColumns);
  }
}

=== FILE: raster.dfy ===
/** The arrays every stage shares. The image is an `array3<real>` indexed (band, row, column),
    read only; the cluster table is an `array2<Float>` with one row per cluster of `bands + 3`
    fields (the mean series, then centre row, centre column and pixel count); the label map is
    an `array2<int>` and the distance map an `array2<Float>`, both `rows x columns`. */
module Raster {
  import opened Floats

  /** The `bands + 3` fields a pixel writes into a cluster row: its series, then its row, its
      column and `last` (0 when a seed is placed, 1 when a member is accumulated). */
  function Record(img: array3<real>, r: nat, c: nat, last: real, j: nat): real
    requires r < img.Length1 && c < img.Length2 && j < img.Length0 + 3
    reads img
  {
    if j < img.Length0 then img[j, r, c]
    else if j == img.Length0 then r as real
    else if j == img.Length0 + 1 then c as real
    else last
  }

  /** Label map and distance map cover the image. */
  predicate Covers(img: array3<real>, l: array2<int>, d: array2<Float>)
  {
    l.Length0 == img.Length1 && l.Length1 == img.Length2 &&
    d.Length0 == img.Length1 && d.Length1 == img.Length2
  }

  /** Every pixel is unassigned (-1) and infinitely far from every centre. */
  ghost predicate Blank(l: array2<int>, d: array2<Float>)
    reads l, d
  {
    l.Length0 == d.Length0 && l.Length1 == d.Length1 &&
    forall r, c :: 0 <= r < l.Length0 && 0 <= c < l.Length1 ==> l[r, c] == -1 && d[r, c] == PosInf
  }

  /** Every label is -1 or the index of one of the k clusters. */
  ghost predicate Labelled(l: array2<int>, k: nat)
    reads l
  {
    forall r, c :: 0 <= r < l.Length0 && 0 <= c < l.Length1 ==> -1 <= l[r, c] < k
  }

  /** `-numpy.ones(shape)` and `numpy.full(shape, numpy.inf)` for the image's row/column shape. */
  method NewMaps(rows: nat, columns: nat) returns (l: array2<int>, d: array2<Float>)
    ensures fresh(l) && fresh(d)
    ensures l.Length0 == rows && l.Length1 == columns
    ensures Blank(l, d)
  {
    l := new int[rows, columns]((_, _) => -1);
    d := new Float[rows, columns]((_, _) => PosInf);
  }
}
